=== FILE: README.md ===
# external-ip-notify, modelled in Dafny

`external-ip-notify.py` is a single Python script. It checks whether the
machine's public IP address has changed and, if it has, posts a Discord
embed to every configured webhook. Each process run does exactly one check
cycle (`main`):

1. If `config.json` is missing, write a default one with two placeholder
   webhooks and stop.
2. Read the `webhooks` list. Stop if the file does not decode or the list is
   absent or empty.
3. Read `previous_ip.txt` (if it exists) and strip its whitespace.
4. Ask `api.ipify.org` for the current address (`get_public_ip`). If that
   fails, log the error and stop without notifying anyone.
5. If there is no previous address, or it differs from the current one, send
   one message per webhook in configuration order (`send_discord_message`,
   which logs each outcome and never raises). Then overwrite
   `previous_ip.txt` with the current address.

The model has one module per concern:

- `Wrappers`: `Option`.
- `Http`: the status range `raise_for_status` rejects.
- `PyStr`: `str.strip()`, with Python's whitespace set.
- `Discord`: the posted payload and how a POST's reply is classified.
- `PublicIp`: what `get_public_ip` returns for a given reply.
- `CheckCycle`: the cycle as a pure specification. `Effects(config, ipFile, lookup, post)`
  is the ordered list of the run's outside effects: `WriteDefaultConfig`,
  `Lookup` (the address query), `Send(target, payload, outcome)` and
  `WriteState(ip)`. The files' new contents are computed from the effects
  alone (`ConfigAfter`, `IpFileAfter`). The lemmas state the properties of
  each branch.
- `Notifier`: the cycle as the script runs it. Class `Host` holds the two
  files as mutable cells (`config`, `ipFile`) plus the effect `trace`. Its
  methods follow the script's functions and loop, and each is proved equal
  to the specification.

The network is an input:

- `lookup` is the address service's reply.
- `post(k)` is the reply to the k-th webhook POST of the run.

The script uses one address source with no retry, stops without notifying
anyone when resolution fails, reads its targets from `config.json`, and runs one cycle
per process (`schedule` is imported but never used).

## Model

| member | source | states |
|---|---|---|
| `Http.RaisesForStatus` | external-ip-notify.py:10 | a definition with no contract: `raise_for_status()` raises exactly for statuses 400 to 599. The same call is made on the webhook reply at line 30 |
| `PyStr.IsSpace` | external-ip-notify.py:72 | a definition with no contract: the characters `str.strip()` removes when given no argument. These are the ASCII whitespace characters tab, line feed, vertical tab, form feed, carriage return and space; the separators U+001C to U+001F; U+0085 and U+00A0; and the Unicode space, line and paragraph separators |
| `PyStr.StripLeading` | external-ip-notify.py:72 | the result is the suffix of the text left after removing the longest run of leading whitespace (every removed character is whitespace, the new first one is not) |
| `PyStr.StripTrailing` | external-ip-notify.py:72 | the result is the prefix left after removing the longest run of trailing whitespace |
| `PyStr.Strip` | external-ip-notify.py:72 | `strip()` is no longer than its input and has no whitespace at either edge |
| `PyStr.StripIsSlice` | external-ip-notify.py:72 | `strip()` is the slice `s[i..j]` with only whitespace before `i` and from `j` on |
| `PyStr.StripFixedPoint` | external-ip-notify.py:72 | stripping leaves a text unchanged exactly when it has no edge whitespace |
| `PyStr.StripIdempotent` | external-ip-notify.py:72 | stripping twice is stripping once |
| `PyStr.StripDropsTrailingSpace` | external-ip-notify.py:72 | a stored address followed by one whitespace character (such as a newline) reads back as the address |
| `Discord.BuildPayload` | external-ip-notify.py:18-27 | exactly one embed, titled "External IP Checker", colour 0x7b23eb, whose description is the lead sentence and an opening code fence, the address, then a closing fence (the address can be read back from it) |
| `Discord.IpInDescription` | external-ip-notify.py:22-23 | whatever address it reads back is the one that, placed between the lead text and the closing fence, rebuilds the description |
| `Discord.PayloadInjective` | external-ip-notify.py:18-27 | different addresses produce different payloads |
| `Discord.Classify` | external-ip-notify.py:28-36 | a POST's outcome is `Success` exactly for status 204. It is `Error` exactly for a transport exception or a 4xx/5xx status (raised by `raise_for_status` and caught). It is `Failed(status)` for every other status. Every case returns and none raises |
| `PublicIp.ResolveIp` | external-ip-notify.py:6-14 | an address is returned exactly when a reply arrives, its status is not 4xx/5xx, and its body decodes as JSON with a string `ip` field. The address is then that field; otherwise the result is `None` (a `null` field gives `None` as well) |
| `CheckCycle.ConfiguredWebhooks` | external-ip-notify.py:58 | a definition with no contract: `config.get("webhooks", [])`, the stored list when the key is present and the empty list when it is absent |
| `CheckCycle.HasTargets` | external-ip-notify.py:43-65 | a definition with no contract: a run gets past the three early returns exactly when config.json exists, decodes, and holds a non-empty webhook list. The `Effects` contract states this |
| `CheckCycle.ReadPrevious` | external-ip-notify.py:67-72 | there is a previous address exactly when previous_ip.txt exists, and it has no edge whitespace |
| `CheckCycle.Changed` | external-ip-notify.py:79 | the cycle notifies exactly when the previous address is not the current one: absent (first run) or different |
| `CheckCycle.Notify` | external-ip-notify.py:82-83 | the loop makes as many sends as there are configured webhooks. `NotifyAt` gives each send |
| `CheckCycle.NotifyAt` | external-ip-notify.py:82-83 | the sends are one per configured webhook, in configuration order. Each carries that webhook's url and description, the payload for the current address, and the outcome of its own reply |
| `CheckCycle.Effects` | external-ip-notify.py:38-88 | with no config.json a run's only effect is writing the default configuration. A run begins with the address query exactly when config.json decodes to a non-empty webhook list |
| `CheckCycle.AddressEffects` | external-ip-notify.py:67-88 | the part after the configuration is read begins with the query. It goes on exactly when the address resolved and differs from the stored one. It then has two more effects than there are webhooks and ends by writing the current address. `AddressSteps` and `NotifyAt` give the sends in between |
| `CheckCycle.ConfigAfter` | external-ip-notify.py:50-51 | config.json is either unchanged or holds the default configuration, and the latter only if writing it is one of the effects |
| `CheckCycle.IpFileAfter` | external-ip-notify.py:85-86 | previous_ip.txt is either unchanged or holds an address that one of the effects wrote |
| `CheckCycle.IpFileUntouched` | external-ip-notify.py:85-86 | previous_ip.txt changes only through a `WriteState` effect |
| `CheckCycle.ConfigUntouched` | external-ip-notify.py:50-51 | config.json changes only through a `WriteDefaultConfig` effect |
| `CheckCycle.AddressSteps` | external-ip-notify.py:67-88 | after the configuration is read, a run either stops after the query, or when the address changed runs the query, the sends and the write; previous_ip.txt changes only in the second case |
| `CheckCycle.AddressKeepsConfig` | external-ip-notify.py:67-88 | nothing after reading the configuration rewrites config.json |
| `CheckCycle.MissingConfig` | external-ip-notify.py:43-53 | with no config.json the only effect is writing the default configuration. Its webhooks are exactly the two placeholders, `webhook_url1` ("Server1 - Channel1") and `webhook_url2` ("Server2 - Channel2"). There is no query, no send and no state write |
| `CheckCycle.NothingToNotify` | external-ip-notify.py:55-65 | an undecodable config.json, or a missing or empty `webhooks` list, gives a run with no effects at all (no query, no send, no write) |
| `CheckCycle.ResolverFailure` | external-ip-notify.py:74-77 | a failed query ends the run after the query. There are no sends, and both files are unchanged |
| `CheckCycle.ChangedCycle` | external-ip-notify.py:79-86 | on a change the run is the query, then one send per webhook in order, then the write of the current address. The write comes after all sends, whatever their outcomes. The stored file then holds the current address, and config.json is unchanged |
| `CheckCycle.FirstRun` | external-ip-notify.py:68-86 | with no previous_ip.txt, a resolved address counts as a change (not an error): every webhook is notified and the address is stored |
| `CheckCycle.UnchangedCycle` | external-ip-notify.py:79-88 | when the stored address (after stripping) equals the current one, the run is the query alone: no send and no write |
| `CheckCycle.SecondRunQuiet` | external-ip-notify.py:72-88 | idempotence: after any run that resolved an address with no edge whitespace, a second run resolving the same address sends and writes nothing |
| `CheckCycle.PaddedAddressResent` | external-ip-notify.py:72-86 | an address with edge whitespace is stored raw and read back stripped, so a second run that resolves it again notifies and writes again |
| `CheckCycle.NotifySameRequests` | external-ip-notify.py:82-83 | the loop's sends go to the same targets with the same payloads whatever the replies are |
| `CheckCycle.DeliveryIndependent` | external-ip-notify.py:82-86 | two runs that differ only in the webhook replies make the same requests in the same order and leave both files identical, so persisting does not depend on delivery |
| `Notifier.Host.GetPublicIp` | external-ip-notify.py:6-14 | issues exactly one query and returns the address exactly when the reply is a non-4xx/5xx JSON reply with a string `ip` |
| `Notifier.Host.SendDiscordMessage` | external-ip-notify.py:16-36 | appends one send of the change payload to the given url and description, with that reply's classified outcome, and changes nothing else |
| `Notifier.Host.NotifyAll` | external-ip-notify.py:82-83 | the loop appends exactly the specification's sends, in order |
| `Notifier.Host.ReadPreviousIp` | external-ip-notify.py:67-72 | returns the specification's previous address for the current file |
| `Notifier.Host.CheckAddress` | external-ip-notify.py:67-88 | appends the specification's effects for the query-and-notify part and updates previous_ip.txt as those effects say |
| `Notifier.Host.RunCycle` | external-ip-notify.py:38-88 | one run appends exactly `Effects` of the files as they were to the trace and leaves both files as those effects make them |
| `Notifier.ChangeThenRepeat` | external-ip-notify.py:38-88 | three webhooks, address 1.2.3.4 stored with a trailing newline, 1.2.3.5 resolved, the second webhook answering 500. The first run sends to all three (the second send logged as `Error`) and then stores 1.2.3.5. A second run only queries |
| `Notifier.ScenarioFirstRun` | external-ip-notify.py:67-86 | the effects and new file contents of that scenario's first run |
| `Notifier.ScenarioSecondRun` | external-ip-notify.py:67-88 | the effects of that scenario's second run |
| `Notifier.NewlineStripped` | external-ip-notify.py:72 | "1.2.3.4" followed by a newline reads back as "1.2.3.4", which differs from "1.2.3.5" |

## Left out

- HTTP itself: `requests.get` and `requests.post` are not modelled. Their replies are inputs: `LookupResponse`, and `post(k)` for the k-th POST of a run. The URL and headers of the address query, and timeouts, are not modelled.
- JSON: serialisation and parsing (`json.dump`, `json.load`, `response.json()`) are not modelled. `config.json` is modelled as already decoded (`ConfigFile`), and writing the default configuration sets it to the decoded default.
- File system: `os.path.exists`, `open`, `read` and `write` are not modelled. The two files are `Option` cells. Only the `strip()` applied on read is modelled.
- Logging: all `print` output is left out.
- Crashes from missing keys: these raise an uncaught `KeyError`. The types rule them out: `Webhook` always has both fields, and a JSON reply always carries `ip`.
  - A reply without `ip` crashes inside the query at line 11.
  - A webhook entry without `url` or `description` is first read at line 83. That happens after the query and only when the address changed. With an unchanged address the run ends normally. On a change, the run sends to every well-formed entry ahead of the bad one and then crashes before previous_ip.txt is written.
- Falsy `webhooks` values: `null`, `false`, `0`, `""` and `{}` make `not webhooks` true, so the run returns after logging, before the query, as for an absent list. `Parsed(None)` stands for these values too.
- A `null` address: `{"ip": null}` makes `get_public_ip` return `None`, and the run returns after the query. `Body.NullIp` models this; it behaves like a failed query.
- Other uncaught crashes are not modelled:
  - a `config.json` that is not an object;
  - a `config.json` that is not valid text in the locale's encoding: `json.load` raises `UnicodeDecodeError`, which the handler for decode errors and a missing file does not catch;
  - a truthy `webhooks` value that is not a list of objects. It is first iterated at line 82, after the query and only when the address changed. With an unchanged address the run ends normally at line 88. On a change, the run sends to every well-formed entry ahead of the first bad one and then crashes before the write at lines 85-86;
  - a JSON reply from the address service that is not an object: `response.json()["ip"]` raises `TypeError`, which is not a `RequestException`;
  - an `ip` that is a number, list or object: it never equals the stored text, so every send is made, and the run then crashes at `f.write`, leaving previous_ip.txt empty (the `"w"` open at line 85 truncates it before the write fails), so the next run counts any address as changed;
  - a `previous_ip.txt` that exists but cannot be read (for example, a directory);
  - failure to write either file.
- A `config.json` deleted between the existence check and the read: this raises `FileNotFoundError`, which the script catches and returns. The model has no such state.
- Text-mode newline translation on read and write: not modelled. It only affects addresses that contain carriage returns.
- `PublicIp.ResolveIp`: assumes a `requests` version (2.27 or later) in which an undecodable JSON body raises a `RequestException` subclass. Older versions raise `ValueError`, which would crash the script; the model does not cover that.
- There is no fallback source, retry, error notification, environment-variable configuration or scheduling loop: the script has none.

=== FILE: checkcycle.dfy ===
/**
 * One run of `main`: the decision of what to do, given what the two files
 * hold and what the network answers, written as the ordered list of effects
 * the run has on the outside world. The files' new contents are a function
 * of the old ones and of the effects alone.
 */
module CheckCycle {

  import opened Wrappers
  import opened PyStr
  import opened Discord
  import opened PublicIp

  /** One entry of the `webhooks` list, with its `url` and `description` keys. */
  datatype Webhook = Webhook(url: string, description: string)

  /**
   * What `json.load` makes of config.json: not decodable, or an object whose
   * `webhooks` list may be absent. `Parsed(None)` also stands for a `webhooks`
   * value Python treats as false (`null`, `false`, `0`, `""`, `{}`): the run
   * stops at the same place.
   */
  datatype ConfigFile = Malformed | Parsed(webhooks: Option<seq<Webhook>>)

  /** The two placeholder targets written when config.json does not exist. */
  const DefaultWebhooks: seq<Webhook> :=
    [Webhook("webhook_url1", "Server1 - Channel1"), Webhook("webhook_url2", "Server2 - Channel2")]

  const DefaultConfig: ConfigFile := Parsed(Some(DefaultWebhooks))

  /** What a run does outside the process, in the order it does it. */
  datatype Effect =
    | WriteDefaultConfig
    | Lookup
    | Send(target: Webhook, payload: Payload, outcome: Delivery)
    | WriteState(ip: string)

  /** `config.get("webhooks", [])`. */
  function ConfiguredWebhooks(config: ConfigFile): seq<Webhook>
    requires config.Parsed?
  {
    config.webhooks.GetOr([])
  }

  /** The previous address: the stored text with its edge whitespace removed, if the file exists. */
  function ReadPrevious(ipFile: Option<string>): (previous: Option<string>)
    ensures previous.Some? <==> ipFile.Some?
    ensures previous.Some? ==> Trimmed(previous.value)
  {
    match ipFile
    case None => None
    case Some(text) => Some(Strip(text))
  }

  /** A run notifies when there is no previous address or it differs from the current one. */
  function Changed(previous: Option<string>, current: string): (changed: bool)
    ensures changed <==> previous != Some(current)
  {
    previous.None? || current != previous.value
  }

  /** The loop over the webhooks: the k-th send goes to `targets[k]` and gets reply `post(k)`. */
  function Notify(targets: seq<Webhook>, ip: string, post: nat -> PostResponse): (r: seq<Effect>)
    ensures |r| == |targets|
  {
    if targets == [] then []
    else
      var k := |targets| - 1;
      Notify(targets[..k], ip, post) + [Send(targets[k], BuildPayload(ip), Classify(post(k)))]
  }

  /**
   * The effects of one run. `config` and `ipFile` are config.json and
   * previous_ip.txt (`None` when the file does not exist), `lookup` is the
   * reply to the address query and `post(k)` the reply to the k-th webhook POST.
   */
  function Effects(config: Option<ConfigFile>, ipFile: Option<string>,
                   lookup: LookupResponse, post: nat -> PostResponse): (r: seq<Effect>)
    ensures config.None? ==> r == [WriteDefaultConfig]
    ensures HasTargets(config) <==> r != [] && r[0] == Lookup
  {
    match config
    case None => [WriteDefaultConfig]
    case Some(Malformed) => []
    case Some(Parsed(_)) =>
      var targets := ConfiguredWebhooks(config.value);
      if targets == [] then [] else AddressEffects(targets, ipFile, lookup, post)
  }

  /**
   * The rest of a run once there are targets: the address query, then, if
   * the address resolved and differs from the stored one, the sends and the
   * write of the new address.
   */
  function AddressEffects(targets: seq<Webhook>, ipFile: Option<string>,
                          lookup: LookupResponse, post: nat -> PostResponse): (r: seq<Effect>)
    ensures r != [] && r[0] == Lookup
    ensures |r| > 1 <==> ResolveIp(lookup).Some? && Changed(ReadPrevious(ipFile), ResolveIp(lookup).value)
    ensures |r| > 1 ==> |r| == |targets| + 2 && r[|r| - 1] == WriteState(ResolveIp(lookup).value)
  {
    match ResolveIp(lookup)
    case None => [Lookup]
    case Some(ip) =>
      if Changed(ReadPrevious(ipFile), ip) then [Lookup] + Notify(targets, ip, post) + [WriteState(ip)]
      else [Lookup]
  }

  /** config.json after `effects`: only writing the default configuration changes it. */
  function ConfigAfter(config: Option<ConfigFile>, effects: seq<Effect>): (r: Option<ConfigFile>)
    ensures r == config || (r == Some(DefaultConfig) && WriteDefaultConfig in effects)
  {
    if effects == [] then config
    else if effects[|effects| - 1] == WriteDefaultConfig then Some(DefaultConfig)
    else ConfigAfter(config, effects[..|effects| - 1])
  }

  /** previous_ip.txt after `effects`: the last address written, raw, or the old file. */
  function IpFileAfter(ipFile: Option<string>, effects: seq<Effect>): (r: Option<string>)
    ensures r == ipFile || (r.Some? && WriteState(r.value) in effects)
  {
    if effects == [] then ipFile
    else if effects[|effects| - 1].WriteState? then Some(effects[|effects| - 1].ip)
    else IpFileAfter(ipFile, effects[..|effects| - 1])
  }

  /** A run over a usable configuration: config.json holds a non-empty webhook list. */
  predicate HasTargets(config: Option<ConfigFile>) {
    config.Some? && config.value.Parsed? && ConfiguredWebhooks(config.value) != []
  }

  /** The sends form one per target, in configuration order, each with that target's reply. */
  lemma {:induction false} NotifyAt(targets: seq<Webhook>, ip: string, post: nat -> PostResponse)
    ensures |Notify(targets, ip, post)| == |targets|
    ensures forall k :: 0 <= k < |targets| ==>
              Notify(targets, ip, post)[k] == Send(targets[k], BuildPayload(ip), Classify(post(k)))
  {
    if targets != [] {
      var k := |targets| - 1;
      NotifyAt(targets[..k], ip, post);
    }
  }

  /** Without a `WriteState` the stored address file keeps its contents. */
  lemma {:induction false} IpFileUntouched(ipFile: Option<string>, effects: seq<Effect>)
    requires forall k :: 0 <= k < |effects| ==> !effects[k].WriteState?
    ensures IpFileAfter(ipFile, effects) == ipFile
  {
    if effects != [] {
      IpFileUntouched(ipFile, effects[..|effects| - 1]);
    }
  }

  /** Without a `WriteDefaultConfig` config.json keeps its contents. */
  lemma {:induction false} ConfigUntouched(config: Option<ConfigFile>, effects: seq<Effect>)
    requires forall k :: 0 <= k < |effects| ==> effects[k] != WriteDefaultConfig
    ensures ConfigAfter(config, effects) == config
  {
    if effects != [] {
      ConfigUntouched(config, effects[..|effects| - 1]);
    }
  }

  /** The three ways the part of a run after the configuration is read can go. */
  lemma AddressSteps(targets: seq<Webhook>, ipFile: Option<string>,
                     lookup: LookupResponse, post: nat -> PostResponse)
    ensures var e := AddressEffects(targets, ipFile, lookup, post);
            && (ResolveIp(lookup).None? ==> e == [Lookup] && IpFileAfter(ipFile, e) == ipFile)
            && (ResolveIp(lookup).Some? && !Changed(ReadPrevious(ipFile), ResolveIp(lookup).value)
                ==> e == [Lookup] && IpFileAfter(ipFile, e) == ipFile)
            && (ResolveIp(lookup).Some? && Changed(ReadPrevious(ipFile), ResolveIp(lookup).value)
                ==> var ip := ResolveIp(lookup).value;
                    e == [Lookup] + Notify(targets, ip, post) + [WriteState(ip)]
                    && IpFileAfter(ipFile, e) == Some(ip))
  {
    assert [Lookup][..0] == [];
  }

  /** The part of a run after the configuration is read never writes config.json. */
  lemma AddressKeepsConfig(config: Option<ConfigFile>, targets: seq<Webhook>, ipFile: Option<string>,
                           lookup: LookupResponse, post: nat -> PostResponse)
    ensures ConfigAfter(config, AddressEffects(targets, ipFile, lookup, post)) == config
  {
    var e := AddressEffects(targets, ipFile, lookup, post);
    if ResolveIp(lookup).Some? && Changed(ReadPrevious(ipFile), ResolveIp(lookup).value) {
      var ip := ResolveIp(lookup).value;
      var sends := Notify(targets, ip, post);
      assert e == [Lookup] + sends + [WriteState(ip)];
      NotifyAt(targets, ip, post);
      var init := e[..|e| - 1];
      assert ConfigAfter(config, e) == ConfigAfter(config, init);
      forall k | 0 <= k < |init| ensures init[k] != WriteDefaultConfig {
        if k > 0 {
          assert init[k] == sends[k - 1];
        }
      }
      ConfigUntouched(config, init);
    } else {
      assert e == [Lookup];
      assert e[..0] == [];
    }
  }

  /**
   * No config.json: the default one, with its two placeholder targets, is
   * written and nothing else happens.
   */
  lemma MissingConfig(ipFile: Option<string>, lookup: LookupResponse, post: nat -> PostResponse)
    ensures Effects(None, ipFile, lookup, post) == [WriteDefaultConfig]
    ensures ConfigAfter(None, [WriteDefaultConfig]) == Some(DefaultConfig)
    ensures ConfiguredWebhooks(DefaultConfig)
            == [Webhook("webhook_url1", "Server1 - Channel1"), Webhook("webhook_url2", "Server2 - Channel2")]
    ensures IpFileAfter(ipFile, [WriteDefaultConfig]) == ipFile
  {
  }

  /**
   * An undecodable config.json, or one with no or an empty webhook list: no
   * address query, no send and no write.
   */
  lemma NothingToNotify(config: ConfigFile, ipFile: Option<string>,
                        lookup: LookupResponse, post: nat -> PostResponse)
    requires config.Malformed? || ConfiguredWebhooks(config) == []
    ensures Effects(Some(config), ipFile, lookup, post) == []
  {
  }

  /** A failed address query ends the run with no send and the stored address untouched. */
  lemma ResolverFailure(config: Option<ConfigFile>, ipFile: Option<string>,
                        lookup: LookupResponse, post: nat -> PostResponse)
    requires HasTargets(config) && ResolveIp(lookup).None?
    ensures Effects(config, ipFile, lookup, post) == [Lookup]
    ensures IpFileAfter(ipFile, Effects(config, ipFile, lookup, post)) == ipFile
    ensures ConfigAfter(config, Effects(config, ipFile, lookup, post)) == config
  {
    assert [Lookup][..0] == [];
  }

  /**
   * A changed address: the query, then one send per configured target in
   * order, each with the new address's payload, then one write of the new
   * address as the last effect. The file ends up holding the new address
   * whatever the sends' outcomes, and config.json is untouched.
   */
  lemma ChangedCycle(config: Option<ConfigFile>, ipFile: Option<string>,
                     lookup: LookupResponse, post: nat -> PostResponse, ip: string)
    requires HasTargets(config) && ResolveIp(lookup) == Some(ip)
    requires Changed(ReadPrevious(ipFile), ip)
    ensures var e := Effects(config, ipFile, lookup, post);
            var targets := ConfiguredWebhooks(config.value);
            && |e| == |targets| + 2
            && e[0] == Lookup
            && (forall k :: 0 <= k < |targets| ==>
                  e[k + 1] == Send(targets[k], BuildPayload(ip), Classify(post(k))))
            && e[|e| - 1] == WriteState(ip)
            && IpFileAfter(ipFile, e) == Some(ip)
            && ConfigAfter(config, e) == config
  {
    var e := Effects(config, ipFile, lookup, post);
    var targets := ConfiguredWebhooks(config.value);
    var sends := Notify(targets, ip, post);
    ChangedEffects(config, ipFile, lookup, post, ip);
    NotifyAt(targets, ip, post);
    forall k | 0 <= k < |targets|
      ensures e[k + 1] == Send(targets[k], BuildPayload(ip), Classify(post(k)))
    {
      assert e[k + 1] == sends[k];
    }
    AddressKeepsConfig(config, targets, ipFile, lookup, post);
  }

  /** The effects of a run that sees a changed address, as one sequence. */
  lemma ChangedEffects(config: Option<ConfigFile>, ipFile: Option<string>,
                       lookup: LookupResponse, post: nat -> PostResponse, ip: string)
    requires HasTargets(config) && ResolveIp(lookup) == Some(ip)
    requires Changed(ReadPrevious(ipFile), ip)
    ensures Effects(config, ipFile, lookup, post)
            == [Lookup] + Notify(ConfiguredWebhooks(config.value), ip, post) + [WriteState(ip)]
  {
  }

  /** The first run, with no previous_ip.txt, counts as a change and notifies every target. */
  lemma FirstRun(config: Option<ConfigFile>, lookup: LookupResponse,
                 post: nat -> PostResponse, ip: string)
    requires HasTargets(config) && ResolveIp(lookup) == Some(ip)
    ensures var e := Effects(config, None, lookup, post);
            && Changed(ReadPrevious(None), ip)
            && e == [Lookup] + Notify(ConfiguredWebhooks(config.value), ip, post) + [WriteState(ip)]
            && IpFileAfter(None, e) == Some(ip)
  {
    ChangedCycle(config, None, lookup, post, ip);
  }

  /** The address read back equals the current one: the query only, no send and no write. */
  lemma UnchangedCycle(config: Option<ConfigFile>, ipFile: Option<string>,
                       lookup: LookupResponse, post: nat -> PostResponse, ip: string)
    requires HasTargets(config) && ResolveIp(lookup) == Some(ip)
    requires ReadPrevious(ipFile) == Some(ip)
    ensures Effects(config, ipFile, lookup, post) == [Lookup]
    ensures IpFileAfter(ipFile, [Lookup]) == ipFile
  {
    assert !Changed(ReadPrevious(ipFile), ip);
    assert AddressEffects(ConfiguredWebhooks(config.value), ipFile, lookup, post) == [Lookup];
    assert [Lookup][..0] == [];
  }

  /**
   * Idempotence: after any run that resolved `ip`, a second run resolving the
   * same address sends nothing and writes nothing, provided `ip` has no edge
   * whitespace (it is stored raw and read back stripped).
   */
  lemma SecondRunQuiet(config: Option<ConfigFile>, ipFile: Option<string>,
                       lookup1: LookupResponse, post1: nat -> PostResponse,
                       lookup2: LookupResponse, post2: nat -> PostResponse, ip: string)
    requires HasTargets(config) && Trimmed(ip)
    requires ResolveIp(lookup1) == Some(ip) && ResolveIp(lookup2) == Some(ip)
    ensures var e1 := Effects(config, ipFile, lookup1, post1);
            var file1 := IpFileAfter(ipFile, e1);
            var config1 := ConfigAfter(config, e1);
            var e2 := Effects(config1, file1, lookup2, post2);
            && e2 == [Lookup]
            && IpFileAfter(file1, e2) == file1
  {
    var e1 := Effects(config, ipFile, lookup1, post1);
    var file1 := IpFileAfter(ipFile, e1);
    if Changed(ReadPrevious(ipFile), ip) {
      ChangedCycle(config, ipFile, lookup1, post1, ip);
      StripFixedPoint(ip);
    } else {
      UnchangedCycle(config, ipFile, lookup1, post1, ip);
    }
    assert ConfigAfter(config, e1) == config;
    UnchangedCycle(config, file1, lookup2, post2, ip);
  }

  /**
   * The other side of the proviso: an address with edge whitespace is stored
   * as is but read back stripped, so every later run resolving it notifies again.
   */
  lemma PaddedAddressResent(config: Option<ConfigFile>, ipFile: Option<string>,
                            lookup1: LookupResponse, post1: nat -> PostResponse,
                            lookup2: LookupResponse, post2: nat -> PostResponse, ip: string)
    requires HasTargets(config) && !Trimmed(ip)
    requires ResolveIp(lookup1) == Some(ip) && ResolveIp(lookup2) == Some(ip)
    ensures var e1 := Effects(config, ipFile, lookup1, post1);
            var e2 := Effects(ConfigAfter(config, e1), IpFileAfter(ipFile, e1), lookup2, post2);
            && |e1| >= 2 && e1[|e1| - 1] == WriteState(ip)
            && |e2| >= 2 && e2[|e2| - 1] == WriteState(ip)
  {
    var e1 := Effects(config, ipFile, lookup1, post1);
    ChangedCycle(config, ipFile, lookup1, post1, ip);
    ChangedCycle(config, Some(ip), lookup2, post2, ip);
  }

  /** Two traces that make the same requests: they differ at most in the outcomes of their sends. */
  predicate SameRequests(e1: seq<Effect>, e2: seq<Effect>) {
    && |e1| == |e2|
    && (forall k :: 0 <= k < |e1| && !e1[k].Send? ==> e1[k] == e2[k])
    && (forall k :: 0 <= k < |e1| && e1[k].Send? ==>
          e2[k].Send? && e1[k].target == e2[k].target && e1[k].payload == e2[k].payload)
  }

  /** The sends of the loop do not depend on the replies, apart from their outcomes. */
  lemma NotifySameRequests(targets: seq<Webhook>, ip: string,
                           post1: nat -> PostResponse, post2: nat -> PostResponse)
    ensures SameRequests(Notify(targets, ip, post1), Notify(targets, ip, post2))
  {
    NotifyAt(targets, ip, post1);
    NotifyAt(targets, ip, post2);
  }

  /** Making the same requests is preserved by appending traces that make the same requests. */
  lemma SameRequestsAppend(a1: seq<Effect>, a2: seq<Effect>, b1: seq<Effect>, b2: seq<Effect>)
    requires SameRequests(a1, a2) && SameRequests(b1, b2)
    ensures SameRequests(a1 + b1, a2 + b2)
  {
    forall k | 0 <= k < |a1| + |b1|
      ensures (a1 + b1)[k] == if k < |a1| then a1[k] else b1[k - |a1|]
      ensures (a2 + b2)[k] == if k < |a2| then a2[k] else b2[k - |a2|]
    {
    }
  }

  /**
   * The replies to the POSTs decide nothing but their own logged outcome: two
   * runs that differ only in those replies make the same requests in the same
   * order and leave both files the same.
   */
  lemma DeliveryIndependent(config: Option<ConfigFile>, ipFile: Option<string>,
                            lookup: LookupResponse, post1: nat -> PostResponse,
                            post2: nat -> PostResponse)
    ensures var e1 := Effects(config, ipFile, lookup, post1);
            var e2 := Effects(config, ipFile, lookup, post2);
            && SameRequests(e1, e2)
            && IpFileAfter(ipFile, e1) == IpFileAfter(ipFile, e2)
            && ConfigAfter(config, e1) == ConfigAfter(config, e2)
  {
    var e1 := Effects(config, ipFile, lookup, post1);
    var e2 := Effects(config, ipFile, lookup, post2);
    if HasTargets(config) && ResolveIp(lookup).Some? && Changed(ReadPrevious(ipFile), ResolveIp(lookup).value) {
      var ip := ResolveIp(lookup).value;
      var targets := ConfiguredWebhooks(config.value);
      var n1, n2 := Notify(targets, ip, post1), Notify(targets, ip, post2);
      ChangedEffects(config, ipFile, lookup, post1, ip);
      ChangedEffects(config, ipFile, lookup, post2, ip);
      ChangedCycle(config, ipFile, lookup, post1, ip);
      ChangedCycle(config, ipFile, lookup, post2, ip);
      NotifySameRequests(targets, ip, post1, post2);
      SameRequestsAppend([Lookup], [Lookup], n1, n2);
      SameRequestsAppend([Lookup] + n1, [Lookup] + n2, [WriteState(ip)], [WriteState(ip)]);
      assert SameRequests(e1, e2);
    } else {
      assert e1 == e2;
    }
  }
}

=== FILE: discord.dfy ===
/**
 * The Discord side of one notification: the JSON body posted to a webhook
 * (`send_discord_message`'s `data`) and how the reply to that POST is judged.
 */
module Discord {

  import opened Wrappers
  import opened Http

  /** One entry of the `embeds` array. `color` is the integer the JSON carries. */
  datatype Embed = Embed(title: string, description: string, color: int)

  /** The posted JSON object `{"embeds": [...]}`. */
  datatype Payload = Payload(embeds: seq<Embed>)

  const Title: string := "External IP Checker"
  /** The description text in front of the address, ending in an opening code fence. */
  const Lead: string := "New external IP detected```"
  /** The closing code fence after the address. */
  const Fence: string := "```"
  const ChangeColor: int := 0x7b23eb

  /** The body announcing `ip`: a single embed with the fixed title and colour. */
  function BuildPayload(ip: string): (p: Payload)
    ensures |p.embeds| == 1
    ensures p.embeds[0].title == "External IP Checker"
    ensures p.embeds[0].color == 0x7b23eb
    ensures IpInDescription(p.embeds[0].description) == Some(ip)
  {
    var d := Lead + ip + Fence;
    assert d[..|Lead|] == Lead;
    assert d[|d| - |Fence|..] == Fence;
    assert d[|Lead|..|d| - |Fence|] == ip;
    Payload([Embed(Title, d, ChangeColor)])
  }

  /**
   * Reads the address back out of a description: the text between the
   * leading sentence with its opening fence and the closing fence.
   */
  function IpInDescription(d: string): (r: Option<string>)
    ensures r.Some? ==> d == Lead + r.value + Fence
  {
    if |d| >= |Lead| + |Fence| && d[..|Lead|] == Lead && d[|d| - |Fence|..] == Fence
    then
      var ip := d[|Lead|..|d| - |Fence|];
      assert d == d[..|Lead|] + ip + d[|d| - |Fence|..];
      Some(ip)
    else None
  }

  /** Different addresses are announced with different bodies. */
  lemma PayloadInjective(a: string, b: string)
    ensures BuildPayload(a) == BuildPayload(b) ==> a == b
  {
    if BuildPayload(a) == BuildPayload(b) {
      assert IpInDescription(BuildPayload(a).embeds[0].description) == Some(a);
      assert IpInDescription(BuildPayload(b).embeds[0].description) == Some(b);
    }
  }

  /** What `requests.post` hands back: an exception before any reply, or a status. */
  datatype PostResponse = PostTransportError | PostStatus(code: int)

  /** How `send_discord_message` ends for one webhook; it never raises. */
  datatype Delivery = Success | Failed(status: int) | Error

  /**
   * The outcome of one POST: an exception (transport or from
   * `raise_for_status`) is caught and logged as an error, 204 is a success,
   * and any other status is logged as a failure carrying that status.
   */
  function Classify(response: PostResponse): (d: Delivery)
    ensures d == Success <==> response == PostStatus(204)
    ensures d == Error <==> (response.PostTransportError? || RaisesForStatus(response.code))
    ensures d.Failed? <==>
              (response.PostStatus? && response.code != 204 && !RaisesForStatus(response.code))
    ensures d.Failed? ==> d.status == response.code
  {
    match response
    case PostTransportError => Error
    case PostStatus(code) =>
      if RaisesForStatus(code) then Error
      else if code == 204 then Success
      else Failed(code)
  }
}

=== FILE: http.dfy ===
/** What the `requests` library decides on its own about an HTTP reply. */
module Http {

  /** `Response.raise_for_status()` raises for client (4xx) and server (5xx) errors. */
  predicate RaisesForStatus(code: int) {
    400 <= code < 600
  }
}

=== FILE: notifier.dfy ===
/**
 * The script's run as it happens: the two files are cells that `RunCycle`
 * reads at the start and overwrites at the end, and every effect on the
 * outside world is appended to `trace` in the order it is made.
 */
module Notifier {

  import opened Wrappers
  import opened Http
  import opened PyStr
  import opened Discord
  import opened PublicIp
  import opened CheckCycle

  class Host {
    /** config.json as `json.load` reads it; `None` when the file does not exist. */
    var config: Option<ConfigFile>
    /** The raw text of previous_ip.txt; `None` when the file does not exist. */
    var ipFile: Option<string>
    /** The effects made so far, oldest first. */
    var trace: seq<Effect>

    constructor (config: Option<ConfigFile>, ipFile: Option<string>)
      ensures this.config == config && this.ipFile == ipFile && trace == []
    {
      this.config := config;
      this.ipFile := ipFile;
      trace := [];
    }

    /** `get_public_ip`: queries the address service once; `None` on any request failure or a `null` address. */
    method GetPublicIp(response: LookupResponse) returns (ip: Option<string>)
      modifies this`trace
      ensures trace == old(trace) + [Lookup]
      ensures ip.Some? <==> response.LookupReply? && response.body.JsonIp?
                              && !RaisesForStatus(response.status)
      ensures ip.Some? ==> ip.value == response.body.ip
    {
      trace := trace + [Lookup];
      ip := ResolveIp(response);
    }

    /**
     * `send_discord_message`: one POST of the change payload to `url`; the
     * outcome is logged and never raised.
     */
    method SendDiscordMessage(url: string, currentIp: string, description: string,
                              response: PostResponse)
      modifies this`trace
      ensures trace == old(trace) + [Send(Webhook(url, description), BuildPayload(currentIp),
                                          Classify(response))]
    {
      var outcome := Classify(response);
      trace := trace + [Send(Webhook(url, description), BuildPayload(currentIp), outcome)];
    }

    /**
     * The `for` loop of `main`: one `send_discord_message` per target, in
     * order, the k-th getting reply `post(k)`.
     */
    method NotifyAll(webhooks: seq<Webhook>, ip: string, post: nat -> PostResponse)
      modifies this`trace
      ensures trace == old(trace) + Notify(webhooks, ip, post)
    {
      var i := 0;
      while i < |webhooks|
        invariant 0 <= i <= |webhooks|
        invariant trace == old(trace) + Notify(webhooks[..i], ip, post)
      {
        assert webhooks[..i + 1][..i] == webhooks[..i];
        SendDiscordMessage(webhooks[i].url, ip, webhooks[i].description, post(i));
        i := i + 1;
      }
      assert webhooks[..i] == webhooks;
    }

    /** Lines 67-72 of `main`: the stored address, stripped, or `None` if the file does not exist. */
    method ReadPreviousIp() returns (previous: Option<string>)
      ensures previous == ReadPrevious(ipFile)
    {
      previous := None;
      if ipFile.Some? {
        previous := Some(Strip(ipFile.value));
      }
    }

    /**
     * Lines 67-88 of `main`, reached with a non-empty webhook list: read the
     * stored address, query the current one, and on a change notify every
     * target and then store the new address.
     */
    method CheckAddress(webhooks: seq<Webhook>, lookup: LookupResponse, post: nat -> PostResponse)
      modifies this`ipFile, this`trace
      ensures trace == old(trace) + AddressEffects(webhooks, old(ipFile), lookup, post)
      ensures ipFile == IpFileAfter(old(ipFile), AddressEffects(webhooks, old(ipFile), lookup, post))
    {
      ghost var before := trace;
      AddressSteps(webhooks, ipFile, lookup, post);
      var previous := ReadPreviousIp();
      var current := GetPublicIp(lookup);
      if current.None? {
        return;
      }
      var ip := current.value;
      if previous.None? || ip != previous.value {
        NotifyAll(webhooks, ip, post);
        ipFile := Some(ip);
        trace := trace + [WriteState(ip)];
        Regroup(before, Notify(webhooks, ip, post), WriteState(ip));
      }
    }

    /**
     * `main`: one check cycle. `lookup` is the reply the address service
     * gives and `post(k)` the reply to the k-th webhook POST of this run.
     */
    method RunCycle(lookup: LookupResponse, post: nat -> PostResponse)
      modifies this
      ensures trace == old(trace) + Effects(old(config), old(ipFile), lookup, post)
      ensures config == ConfigAfter(old(config), Effects(old(config), old(ipFile), lookup, post))
      ensures ipFile == IpFileAfter(old(ipFile), Effects(old(config), old(ipFile), lookup, post))
    {
      if config.None? {
        config := Some(DefaultConfig);
        trace := trace + [WriteDefaultConfig];
        return;
      }
      if config.value.Malformed? {
        return;
      }
      var webhooks := config.value.webhooks.GetOr([]);
      if webhooks == [] {
        return;
      }
      AddressKeepsConfig(config, webhooks, ipFile, lookup, post);
      CheckAddress(webhooks, lookup, post);
    }
  }

  /** The trace built one effect at a time equals the trace with a run's effects appended at once. */
  lemma Regroup(before: seq<Effect>, middle: seq<Effect>, last: Effect)
    ensures before + [Lookup] + middle + [last] == before + ([Lookup] + middle + [last])
  {
  }

  /**
   * Two runs against the same files: the address changes from 1.2.3.4 to
   * 1.2.3.5 while the second of three targets answers 500, then the same
   * address is seen again.
   */
  method ChangeThenRepeat() returns (first: seq<Effect>, second: seq<Effect>, stored: Option<string>)
    ensures first == [Lookup,
                      Send(Webhook("a", "A"), BuildPayload("1.2.3.5"), Success),
                      Send(Webhook("b", "B"), BuildPayload("1.2.3.5"), Error),
                      Send(Webhook("c", "C"), BuildPayload("1.2.3.5"), Success),
                      WriteState("1.2.3.5")]
    ensures second == [Lookup]
    ensures stored == Some("1.2.3.5")
  {
    var targets := [Webhook("a", "A"), Webhook("b", "B"), Webhook("c", "C")];
    var host := new Host(Some(Parsed(Some(targets))), Some("1.2.3.4\n"));
    var reply := LookupReply(200, JsonIp("1.2.3.5"));
    var post := (k: nat) => if k == 1 then PostStatus(500) else PostStatus(204);
    ScenarioFirstRun(targets, reply, post);
    host.RunCycle(reply, post);
    first := host.trace;
    ScenarioSecondRun(targets, reply, post);
    host.RunCycle(reply, post);
    second := host.trace[|first|..];
    stored := host.ipFile;
  }

  lemma ScenarioFirstRun(targets: seq<Webhook>, reply: LookupResponse, post: nat -> PostResponse)
    requires targets == [Webhook("a", "A"), Webhook("b", "B"), Webhook("c", "C")]
    requires reply == LookupReply(200, JsonIp("1.2.3.5"))
    requires post(0) == PostStatus(204) && post(1) == PostStatus(500) && post(2) == PostStatus(204)
    ensures var e := Effects(Some(Parsed(Some(targets))), Some("1.2.3.4\n"), reply, post);
            && e == [Lookup,
                     Send(Webhook("a", "A"), BuildPayload("1.2.3.5"), Success),
                     Send(Webhook("b", "B"), BuildPayload("1.2.3.5"), Error),
                     Send(Webhook("c", "C"), BuildPayload("1.2.3.5"), Success),
                     WriteState("1.2.3.5")]
            && ConfigAfter(Some(Parsed(Some(targets))), e) == Some(Parsed(Some(targets)))
            && IpFileAfter(Some("1.2.3.4\n"), e) == Some("1.2.3.5")
  {
    NewlineStripped();
    var config := Some(Parsed(Some(targets)));
    var e := Effects(config, Some("1.2.3.4\n"), reply, post);
    ChangedCycle(config, Some("1.2.3.4\n"), reply, post, "1.2.3.5");
    assert e[0 + 1] == Send(targets[0], BuildPayload("1.2.3.5"), Classify(post(0)));
    assert e[1 + 1] == Send(targets[1], BuildPayload("1.2.3.5"), Classify(post(1)));
    assert e[2 + 1] == Send(targets[2], BuildPayload("1.2.3.5"), Classify(post(2)));
  }

  lemma ScenarioSecondRun(targets: seq<Webhook>, reply: LookupResponse, post: nat -> PostResponse)
    requires targets != [] && reply == LookupReply(200, JsonIp("1.2.3.5"))
    ensures Effects(Some(Parsed(Some(targets))), Some("1.2.3.5"), reply, post) == [Lookup]
    ensures IpFileAfter(Some("1.2.3.5"), [Lookup]) == Some("1.2.3.5")
  {
    assert Trimmed("1.2.3.5") by {
      assert "1.2.3.5"[0] == '1' && "1.2.3.5"[6] == '5';
    }
    StripFixedPoint("1.2.3.5");
    assert ReadPrevious(Some("1.2.3.5")) == Some("1.2.3.5");
    UnchangedCycle(Some(Parsed(Some(targets))), Some("1.2.3.5"), reply, post, "1.2.3.5");
  }

  /** The stored "1.2.3.4" followed by a newline reads back as "1.2.3.4", which differs from "1.2.3.5". */
  lemma NewlineStripped()
    ensures ReadPrevious(Some("1.2.3.4\n")) == Some("1.2.3.4")
    ensures Changed(Some("1.2.3.4"), "1.2.3.5")
  {
    assert Trimmed("1.2.3.4") by {
      assert "1.2.3.4"[0] == '1' && "1.2.3.4"[6] == '4';
    }
    assert "1.2.3.4\n" == "1.2.3.4" + ['\n'];
    StripDropsTrailingSpace("1.2.3.4", '\n');
    assert "1.2.3.4"[6] != "1.2.3.5"[6];
  }
}

=== FILE: publicip.dfy ===
/**
 * `get_public_ip`: one GET to the ipify service, reduced to the decision it
 * makes about the reply. The request itself is an input.
 */
module PublicIp {

  import opened Wrappers
  import opened Http

  /**
   * The reply body: not JSON at all, a JSON object whose `ip` field is a
   * string, or one whose `ip` field is `null` (`response.json()["ip"]` is then
   * `None`, which the caller treats like a failed query).
   */
  datatype Body = NotJson | JsonIp(ip: string) | NullIp

  /** What `requests.get` hands back: an exception before any reply, or a reply. */
  datatype LookupResponse = LookupTransportError | LookupReply(status: int, body: Body)

  /**
   * The address, or `None` when any `RequestException` is raised (a transport
   * error, a 4xx/5xx status from `raise_for_status`, or a body that does not
   * decode as JSON) or when the `ip` field is `null`.
   */
  function ResolveIp(response: LookupResponse): (r: Option<string>)
    ensures r.Some? <==>
              (response.LookupReply? && !RaisesForStatus(response.status)
               && response.body.JsonIp?)
    ensures r.Some? ==> r.value == response.body.ip
  {
    match response
    case LookupTransportError => None
    case LookupReply(status, body) =>
      if RaisesForStatus(status) then None
      else if body.JsonIp? then Some(body.ip)
      else None
  }
}

=== FILE: pystr.dfy ===
/**
 * Python's `str.strip()` with no argument, which the check cycle applies to
 * the contents of the stored-address file before comparing them.
 */
module PyStr {

  /**
   * The characters `str.isspace()` accepts, which are the ones `str.strip()`
   * removes: TAB, LF, VT, FF, CR, the four information separators, SPACE,
   * NEL, NO-BREAK SPACE, and the Unicode space, line and paragraph separators.
   */
  predicate IsSpace(c: char) {
    || c == '\t' || c == '\n' || c == '\U{0B}' || c == '\U{0C}' || c == '\r'
    || c == '\U{1C}' || c == '\U{1D}' || c == '\U{1E}' || c == '\U{1F}' || c == ' '
    || c == '\U{85}' || c == '\U{A0}' || c == '\U{1680}'
    || c == '\U{2000}' || c == '\U{2001}' || c == '\U{2002}' || c == '\U{2003}'
    || c == '\U{2004}' || c == '\U{2005}' || c == '\U{2006}' || c == '\U{2007}'
    || c == '\U{2008}' || c == '\U{2009}' || c == '\U{200A}'
    || c == '\U{2028}' || c == '\U{2029}' || c == '\U{202F}' || c == '\U{205F}'
    || c == '\U{3000}'
  }

  /** Neither the first nor the last character of `s` is whitespace. */
  predicate Trimmed(s: string) {
    s == [] || (!IsSpace(s[0]) && !IsSpace(s[|s| - 1]))
  }

  /** `s.lstrip()`: drops the longest whitespace prefix and keeps the rest. */
  function StripLeading(s: string): (r: string)
    ensures |r| <= |s| && r == s[|s| - |r|..]
    ensures forall k :: 0 <= k < |s| - |r| ==> IsSpace(s[k])
    ensures r == [] || !IsSpace(r[0])
  {
    if s != [] && IsSpace(s[0]) then StripLeading(s[1..]) else s
  }

  /** `s.rstrip()`: drops the longest whitespace suffix and keeps the rest. */
  function StripTrailing(s: string): (r: string)
    ensures |r| <= |s| && r == s[..|r|]
    ensures forall k :: |r| <= k < |s| ==> IsSpace(s[k])
    ensures r == [] || !IsSpace(r[|r| - 1])
  {
    if s != [] && IsSpace(s[|s| - 1]) then StripTrailing(s[..|s| - 1]) else s
  }

  /** `s.strip()`: the longest whitespace prefix and suffix are both removed. */
  function Strip(s: string): (r: string)
    ensures |r| <= |s| && Trimmed(r)
  {
    var t := StripLeading(s);
    var r := StripTrailing(t);
    StripLeadingKeepsTail(t, r);
    r
  }

  /**
   * What `strip()` removes: `Strip(s)` is the slice `s[i..j]` left once the
   * whitespace characters before `i` and from `j` on are taken away; the
   * returned `i` and `j` are those bounds.
   */
  lemma StripIsSlice(s: string) returns (i: nat, j: nat)
    ensures i <= j <= |s| && Strip(s) == s[i..j]
    ensures forall k :: 0 <= k < i ==> IsSpace(s[k])
    ensures forall k :: j <= k < |s| ==> IsSpace(s[k])
  {
    var t := StripLeading(s);
    i := |s| - |t|;
    j := i + |Strip(s)|;
    SuffixPrefix(s, i, StripTrailing(t));
  }

  /** A prefix `r` of `s[i..]` followed there only by whitespace is `s[i..i + |r|]`, followed in `s` only by whitespace. */
  lemma SuffixPrefix(s: string, i: nat, r: string)
    requires i <= |s| && |r| <= |s| - i && r == s[i..][..|r|]
    requires forall k :: |r| <= k < |s| - i ==> IsSpace(s[i..][k])
    ensures r == s[i..i + |r|]
    ensures forall k :: i + |r| <= k < |s| ==> IsSpace(s[k])
  {
    forall k | i + |r| <= k < |s| ensures IsSpace(s[k]) {
      assert s[k] == s[i..][k - i];
    }
  }

  /** Removing trailing whitespace does not expose leading whitespace. */
  lemma StripLeadingKeepsTail(t: string, r: string)
    requires t == [] || !IsSpace(t[0])
    requires |r| <= |t| && r == t[..|r|]
    requires forall k :: |r| <= k < |t| ==> IsSpace(t[k])
    ensures r == [] || !IsSpace(r[0])
  {
    if r == [] && t != [] {
    } else if r != [] {
      assert r[0] == t[0];
    }
  }

  /** Stripping leaves a string unchanged exactly when it has no edge whitespace. */
  lemma {:induction false} StripFixedPoint(s: string)
    ensures Strip(s) == s <==> Trimmed(s)
  {
    if Trimmed(s) {
      if s != [] {
        assert StripLeading(s) == s;
        assert StripTrailing(s) == s;
      }
    }
  }

  /** Stripping twice is stripping once. */
  lemma StripIdempotent(s: string)
    ensures Strip(Strip(s)) == Strip(s)
  {
    StripFixedPoint(Strip(s));
  }

  /** A text with no edge whitespace followed by one whitespace character (say a newline) strips to the text. */
  lemma StripDropsTrailingSpace(s: string, c: char)
    requires Trimmed(s) && IsSpace(c)
    ensures Strip(s + [c]) == s
  {
    var t := s + [c];
    if s == [] {
      assert StripLeading(t) == StripLeading([]);
    } else {
      assert t[0] == s[0];
      assert StripLeading(t) == t;
      assert t[..|t| - 1] == s;
      assert StripTrailing(t) == StripTrailing(s);
    }
  }
}

=== FILE: wrappers.dfy ===
/** The optional value used wherever the script holds `None` or a value. */
module Wrappers {

  datatype Option<+T> = None | Some(value: T) {

    /** The value held, or `default` when there is none (Python's `d.get(k, default)`). */
    function GetOr(default: T): (r: T)
      ensures Some? ==> r == value
      ensures None? ==> r == default
    {
      match this
      case Some(v) => v
      case None => default
    }
  }
}
